=== FILE: README.md ===
# Invoice extractor: a Dafny model of `read.py`

`read.py` reads the text of Brazilian electricity invoices. Two layouts are
known, CPFL and CEMIG. The program turns each text into a record of billing
fields:
- the holder;
- the address;
- the installation;
- the amounts due;
- tariffs;
- energy quantities;
- tax rates;
- the payment line.

This project models the three pieces of `read.py` that hold logic:

1. **Number normalisation** (`numbers.dfy`, `text.dfy`). `clean_currency` and
   `clean_number` rewrite a Brazilian amount: they drop `R$`, drop every `.`,
   turn `,` into `.` and strip whitespace. They then call `float()`. Empty or
   rejected text is worth 0.0.
   - Python's `str.strip` (with Python's whitespace set) is modelled exactly,
     and so is `str.replace` for the non-empty patterns `read.py` uses, without
     the `count` argument. `str.upper` is modelled for ASCII letters only.
   - `float()` is modelled exactly on plain decimal text (`[+-]digits[.digits]`).
     Around the number it skips Python's whitespace except the information
     separators U+001C to U+001F, which make it raise.
   - `float()` rejects text made only of digits, dots and signs that is not
     plain, and text holding an ASCII character no number can contain.
   - Every other text `float()` might accept (exponents, `inf`, `nan`,
     underscores, non-ASCII digits) goes to a parameter, `exotic`. Nothing is
     claimed about that parameter.
2. **Record assembly** (`invoice.dfy`, `cpfl.dfy`, `cemig.dfy`).
   `parse_cpfl_invoice` and `parse_cemig_invoice` fill a fixed record. Each
   field comes from an independent pattern search; a failed search leaves the
   field's sentinel.
   - Each search result is an input: `None` for no match, otherwise the captured
     groups. The `findall` of injected energy is a sequence of captures.
   - Both parsers are stated over a pair of number readers (`Readers`), so
     `read.currency` and `read.number` in their lemmas stand for the two
     cleaners. `Cleaners(exotic)` is the pair `read.py` uses, and
     `ProcessInvoice` passes exactly that pair.
3. **Dispatch** (`dispatch.dfy`). `process_invoice` upper-cases the text. It
   chooses CEMIG if `CEMIG` occurs and otherwise CPFL if `CPFL` occurs; if
   neither occurs there is no record.
   - The two parsers' searches are parameters, `scanCemig` and `scanCpfl`.

`amount_format.dfy` defines how the invoices print amounts (`1.234,56`). It
proves that both cleaners read every such text back as the amount it prints.

Every key of the returned dictionary is a field of the `Invoice` datatype, so
every key is present by construction.

## Model

| member | source | states |
|---|---|---|
| Numbers.CleanCurrency | read.py:18-25 | empty text is worth 0.0, as is text whose normalised form is empty; otherwise the result is `float()` of the normalised text, or 0.0 when `float()` rejects it |
| Numbers.CleanNumber | read.py:27-34 | the same as `clean_currency`, but without the `R$` removal |
| Numbers.CurrencyText | read.py:21 | the rewrite is "drop every `R$`, drop every `.`, turn every `,` into `.`, strip"; no comma survives and neither end is whitespace |
| Numbers.NumberText | read.py:30 | the rewrite is "drop every `.`, turn every `,` into `.`, strip"; no comma survives and neither end is whitespace |
| Numbers.SeparatorRewrite | read.py:30 | the two chained `replace` calls equal an independent definition: every `.` is removed and every `,` becomes `.` |
| Numbers.FloatOfTrimmed | read.py:22-25 | `float()` on stripped text: plain decimal text gives its exact value; non-plain text of digits, dots and signs is rejected; text that is accepted is non-empty and uses only characters a number can contain |
| Numbers.ParseFloat | read.py:134 | on stripped text `float()` agrees with `FloatOfTrimmed` |
| Numbers.SeparatorRejected | read.py:134 | an information separator (U+001C to U+001F) before the text makes `float()` raise: `str.isspace()` counts it as whitespace, but `float()` does not skip it |
| Numbers.SpacedFloat | read.py:134 | `float()` ignores surrounding whitespace other than the information separators: a number with such whitespace on either side reads as the number alone |
| Numbers.Cleaners | read.py:18-34 | the pair of readers handed to the parsers reads every text exactly as `clean_currency` and `clean_number` do |
| Numbers.CurrencyAgreesWithNumber | read.py:18-34 | for every text without `R$`, `clean_currency` and `clean_number` give the same value |
| Numbers.RejectedTextIsZero | read.py:31-34 | text whose normalised form holds a character no number can contain is worth 0.0, whatever `exotic` does |
| Numbers.ForeignCharRejected | read.py:22-25 | `float()` rejects stripped text holding a character no number can contain |
| Numbers.RejectedIsZero | read.py:22-34 | when `float()` rejects the normalised text, both cleaners return 0.0 |
| Numbers.AbcIsZero | read.py:18-34 | the text `abc` is worth 0.0 to both cleaners |
| Numbers.EmptyIsZero | read.py:20 | empty text is worth 0.0 to both cleaners |
| Numbers.LettersUnchangedAsCurrency | read.py:21 | the rewrite leaves text made of lower-case letters unchanged |
| Numbers.DigitsParse | read.py:134 | `float()` reads a capture of ASCII digits as the number those digits denote |
| AmountFormat.NumberRoundTrip | read.py:27-34 | `clean_number` reads every amount printed in invoice format (`1.234.567,89`) back as that amount |
| AmountFormat.CurrencyRoundTrip | read.py:18-25 | so does `clean_currency` |
| AmountFormat.PrefixedCurrencyRoundTrip | read.py:18-25 | so does `clean_currency` when the amount follows `R$ ` |
| AmountFormat.PrintedAmountIsPlain | read.py:21 | the normalised form of a printed amount is plain decimal text, stripped, denoting the amount |
| AmountFormat.PrintedExample | read.py:19 | `R$ 1.234,56` and `1.234,56` both read as 1234.56 |
| Text.Strip | read.py:21 | `strip()` gives text with no whitespace at either end, never longer than its input |
| Text.StripAround | read.py:21 | `strip()` removes exactly the whitespace around a stripped core |
| Text.StripIsSlice | read.py:21 | the result of `strip()` is a contiguous slice of its input, with only whitespace before and after it |
| Text.Contains | read.py:157 | `pat in s` never holds for a pattern longer than the text, and always holds for the empty pattern; `Text.ContainsIff` relates it to an occurrence index |
| Text.ContainsIff | read.py:157 | the scan of `in` holds exactly when the pattern occurs at some index |
| Text.Replace | read.py:21 | `replace` leaves text in which the pattern does not occur unchanged; `Text.ReplaceDropsChar` and `Text.ReplaceSwapsChar` give its result for the single-character patterns `read.py` uses |
| Text.Upper | read.py:157 | `upper()` keeps the length and upper-cases every ASCII letter, position by position (other characters are kept) |
| Text.ReplaceDropsChar | read.py:21 | `replace(c, '')` equals an independent definition: remove every `c` |
| Text.ReplaceSwapsChar | read.py:125 | `replace(a, b)` for single characters equals an independent definition: substitute `b` for `a` at every position |
| Text.ReplaceAbsentHead | read.py:21 | `replace` leaves text unchanged when the pattern's first character does not occur in it |
| Invoice.StrippedOrNotFound | read.py:43 | a matched capture gives exactly its `strip()` (so no surrounding whitespace, never longer); a failed search gives "Não encontrado" |
| Cpfl.InjectedTotal | read.py:75-76 | the generator sum over no captures is 0, and over one capture is that capture's reading |
| Cpfl.SumInjected | read.py:76 | the loop over the injected-energy captures computes the generator sum of `clean_number` |
| Cpfl.SumAppend | read.py:76 | the sum over two runs of numbers is the sum of their sums |
| Cpfl.InjectedTotalAppend | read.py:75-76 | over exact reals, the total over two runs of captures is the sum of their totals |
| Cpfl.InjectedTotalOrder | read.py:75-76 | over exact reals, the injected-energy total does not depend on the order in which the lines are found: any two capture lists that are rearrangements of each other (same multiset) have the same total |
| Cpfl.InjectedPair | read.py:76 | two captures total the sum of their two readings |
| Cpfl.InjectedExample | read.py:75-76 | captures `1.234,50` and `10,00` total 1244.5 kWh |
| Cpfl.CpflInjected | read.py:75-76 | `energia_compensada_kwh` is the total of the injected-energy captures, and 0 when there are none |
| Cpfl.ParseCpfl | read.py:36-95 | with no search matched the record is the separately written `CpflSentinels`; the per-field properties are the lemmas `Cpfl.CpflSummary` to `Cpfl.CpflSummaryIsolated` below |
| Cpfl.CpflSummary | read.py:54-62 | installation, month, due date and amount come from one search: all four are set from it, or all four take their sentinels |
| Cpfl.CpflTotal | read.py:78-79 | `total_operacoes` is the consolidated total when one was found, otherwise it equals `valor_pagar` |
| Cpfl.CpflTariff | read.py:64-67 | the tariff is 0.0 unless both TUSD and TE matched, in which case it is their sum; `tarifa_total_aneel` is always the fixed note |
| Cpfl.CpflHolder | read.py:42-44 | name and CPF are both stripped captures of one search, or both "Não encontrado" |
| Cpfl.CpflAddress | read.py:46-52 | the address (street, district, postcode line) and the classification come from one search, or are both "Não encontrado" |
| Cpfl.CpflRates | read.py:84-90 | ICMS, PIS and COFINS are the captured percentages, each defaulting to "0,00"; PIS and COFINS come from one search |
| Cpfl.CpflSingleFields | read.py:69-93 | consumption and balance are `clean_number` of their captures, the lighting contribution is `clean_currency` of its capture, and the payment line is the raw capture; each takes 0.0 or "Não encontrado" when its search fails |
| Cpfl.CpflNoMatch | read.py:40-95 | when no search matches, every field holds its sentinel |
| Cpfl.CpflSummaryIsolated | read.py:54-79 | whether the summary search matched changes only the four summary fields and, through the fallback, `total_operacoes` |
| Cemig.OneLine | read.py:125 | the classification text has no newline and no surrounding whitespace; it is the strip of the text with every newline turned into a space |
| Cemig.TwoLineClassification | read.py:124-125 | a classification broken over two lines reads as the two words joined by one space |
| Cemig.CemigClassification | read.py:124-125 | `classificacao` is "Não encontrado" when the search fails, and otherwise the capture with newlines turned into spaces and stripped, so a single line without surrounding whitespace |
| Cemig.ParseCemig | read.py:97-153 | `total_operacoes` always equals `valor_pagar`, and with no search matched the record is the separately written `CemigSentinels`; the per-field properties are the lemmas `Cemig.CemigValues` to `Cemig.CemigValuesIsolated` |
| Cemig.CemigValues | read.py:115-118 | month, due date and amount come from one search: all set from it, or all sentinels |
| Cemig.CemigTotal | read.py:145 | `total_operacoes` always equals `valor_pagar` |
| Cemig.Component | read.py:141-142 | a compensation component is non-negative, and 0.0 when its search failed |
| Cemig.ComponentIsFloat | read.py:141-142 | a matched component is what `float()` makes of its digits |
| Cemig.CemigCompensated | read.py:139-143 | `energia_compensada_kwh` is comp1 + comp2, with a missing component counting 0 |
| Cemig.CompensatedExample | read.py:139-143 | components `120` and `30` give 150 kWh |
| Cemig.CemigFixed | read.py:150-151 | the tax rates are always "0,00" and the payment line is always "Não encontrado" |
| Cemig.CemigHolder | read.py:103-113 | name and document are stripped captures or "Não encontrado"; the address is three stripped parts or "Não encontrado" |
| Cemig.CemigSingleFields | read.py:121-148 | installation, tariffs, consumption, balance and lighting contribution take their sentinels when their searches fail; otherwise the installation is the raw capture, the TE tariff, SCEE tariff and balance are `clean_number` of their captures, the consumption is the value of its digits, and the lighting contribution is `clean_currency` of its capture |
| Cemig.CemigNoMatch | read.py:101-153 | when no search matches, every field holds its sentinel |
| Cemig.CemigValuesIsolated | read.py:115-145 | whether the values search matched changes only month, due date, amount and the mirrored total |
| Dispatch.MentionsIff | read.py:157 | `marker in text.upper()` holds exactly when the marker occurs in the text, letter case aside |
| Dispatch.Detect | read.py:157-162 | the layout is CEMIG exactly when `CEMIG` occurs; it is CPFL exactly when `CPFL` occurs and `CEMIG` does not; there is none exactly when neither occurs |
| Dispatch.ProcessInvoice | read.py:155-162 | there is no record exactly when neither marker occurs; otherwise the record is the CEMIG parse, or the CPFL parse when only `CPFL` occurs |
| Dispatch.FileNameIgnored | read.py:155-162 | the result does not depend on the file name |
| Dispatch.CemigFirst | read.py:157-160 | a text containing both markers is read as CEMIG |
| Dispatch.NoMarkerNoRecord | read.py:161-162 | a text containing neither marker yields no record |
| Dispatch.DetectIgnoresCase | read.py:157-159 | upper-casing the text first does not change the layout chosen |
| Dispatch.LowerCaseMarker | read.py:157-158 | a lower-case `cemig` in the text selects the CEMIG parser |

## Left out

- `extract_text_from_pdf` (read.py:4-16) is not modelled. It opens a PDF through the external `pdfplumber` library, which is file I/O.
- `print_formated_data` and `main` (read.py:164-206) are not modelled. They are console output and a fixed loop over file names.
- The regular-expression engine is not modelled. Each `re.search` is an `Option` input, and the `re.findall` of injected energy is a sequence input.
  - `ProcessInvoice` receives the two parsers' searches as functions of the text.
  - Constraints a pattern places on its captures are not modelled, with one exception: `\d+` captures are ASCII digit strings (`DigitString`).
- Numbers are exact reals, not IEEE doubles, so rounding of sums and conversions is not modelled.
- Cpfl.InjectedTotalAppend: holds over exact reals only. Python's float sum at read.py:76 rounds after every addition, so regrouping the captures can change the last digit of the total.
- Cpfl.InjectedTotalOrder: holds over exact reals only. Python's float sum at read.py:76 can change in the last digit when the captures come in another order: `0,1`, `0,2`, `0,3` total 0.6000000000000001 in that order and 0.6 in reverse.
- Cpfl.CpflTariff: the tariff is stated as the exact sum, and the `round(..., 6)` at read.py:66 is not modelled, because the model's numbers are reals.
- Numbers.FloatOfTrimmed: says nothing about text in `float()`'s other forms (exponents, `inf`, `nan`, underscores, non-ASCII digits). Those results are the parameter `exotic`, so the model invents nothing about them.
- Text.Upper: only ASCII letters are upper-cased. Python's `str.upper` also maps other letters, and some of them become ASCII: `ı` becomes `I` and `ﬂ` becomes `FL`. Such text can contain a marker that this model does not see.
- Numbers.DigitsParse: covers ASCII digits only. Python's `\d` and `float()` also accept other Unicode decimal digits.
- Cpfl.InjectedTotal: when there are no captures, Python's `sum` returns the integer `0` rather than `0.0`. The value is the same; the difference in type, which is visible only when printed, is not modelled.
- The CEMIG consumption pattern's `JUL/23` alternative (read.py:133) only changes which text matches, so it is covered by the search being an input.

=== FILE: amount_format.dfy ===
/**
 * How amounts are printed on the invoices ("1.234,56": `.` between groups of
 * three digits, `,` before the two centavos), and the proof that the
 * normalisers read every such text back as the amount it prints.
 */
module AmountFormat {
  import opened Text
  import opened Numbers

  function DigitChar(d: nat): (c: char)
    requires d < 10
    ensures IsDigit(c) && c as int - '0' as int == d
  {
    ('0' as int + d) as char
  }

  /** The decimal digits of `n`, without leading zeros. */
  function NatDigits(n: nat): (r: string)
    ensures |r| > 0 && AllDigits(r) && DigitsValue(r) == n
    decreases n
  {
    if n < 10 then [DigitChar(n)]
    else
      var r := NatDigits(n / 10) + [DigitChar(n % 10)];
      assert r[..|r| - 1] == NatDigits(n / 10);
      r
  }

  /** `n` written with exactly `width` digits, zero-padded on the left. */
  function PaddedDigits(n: nat, width: nat): (r: string)
    requires n < Pow10(width)
    ensures |r| == width && AllDigits(r) && DigitsValue(r) == n
  {
    if width == 0 then []
    else
      var r := PaddedDigits(n / 10, width - 1) + [DigitChar(n % 10)];
      assert r[..|r| - 1] == PaddedDigits(n / 10, width - 1);
      r
  }

  /** `n` with a `.` between groups of three digits: 1234567 is "1.234.567". */
  function Grouped(n: nat): (r: string)
    decreases n
  {
    if n < 1000 then NatDigits(n)
    else
      assert Pow10(3) == 1000;
      Grouped(n / 1000) + "." + PaddedDigits(n % 1000, 3)
  }

  /** An amount of reais and centavos as the invoices print it: 1234 reais
      and 56 centavos is "1.234,56". */
  function FormatAmount(reais: nat, cents: nat): string
    requires cents < 100
  {
    assert Pow10(2) == 100;
    Grouped(reais) + "," + PaddedDigits(cents, 2)
  }

  /** The amount in reais. */
  function AmountValue(reais: nat, cents: nat): real
  {
    reais as real + cents as real / 100.0
  }

  lemma {:induction false} DigitsAppend(a: string, b: string)
    requires AllDigits(a) && AllDigits(b)
    ensures AllDigits(a + b)
    ensures DigitsValue(a + b) == DigitsValue(a) * Pow10(|b|) + DigitsValue(b)
    decreases |b|
  {
    if |b| > 0 {
      var b' := b[..|b| - 1];
      assert (a + b)[..|a + b| - 1] == a + b';
      assert (a + b)[|a + b| - 1] == b[|b| - 1];
      DigitsAppend(a, b');
      var x := DigitsValue(a);
      var last := b[|b| - 1] as int - '0' as int;
      assert DigitsValue(a + b) == 10 * DigitsValue(a + b') + last;
      assert DigitsValue(b) == 10 * DigitsValue(b') + last;
      ShiftDigit(x, Pow10(|b'|));
    } else {
      assert a + b == a;
    }
  }

  /** One more digit multiplies the weight of the leading part by ten. */
  lemma ShiftDigit(x: nat, p: nat)
    ensures 10 * (x * p) == x * (10 * p)
  {
  }

  /** Dropping the group separators of `Grouped(n)` leaves the digits of `n`. */
  lemma {:induction false} GroupedDigits(n: nat)
    ensures var g := Grouped(n);
            && (forall i :: 0 <= i < |g| ==> IsDigit(g[i]) || g[i] == '.')
            && |Without(g, '.')| > 0 && AllDigits(Without(g, '.'))
            && DigitsValue(Without(g, '.')) == n
    decreases n
  {
    var g := Grouped(n);
    if n < 1000 {
      WithoutAbsent(g, '.');
    } else {
      assert Pow10(3) == 1000;
      var h := Grouped(n / 1000);
      var p := PaddedDigits(n % 1000, 3);
      GroupedDigits(n / 1000);
      assert g == h + "." + p;
      WithoutAppend(h + ".", p, '.');
      WithoutAppend(h, ".", '.');
      assert Without(".", '.') == [];
      WithoutAbsent(p, '.');
      var w := Without(h, '.');
      assert Without(g, '.') == w + p;
      DigitsAppend(w, p);
      forall i | 0 <= i < |g|
        ensures IsDigit(g[i]) || g[i] == '.'
      {
        if i < |h| {
          assert g[i] == h[i];
        } else if i > |h| {
          assert g[i] == p[i - |h| - 1];
        }
      }
    }
  }

  /** The separator rewrite turns a printed amount into plain decimal text. */
  lemma PrintedAmountText(reais: nat, cents: nat)
    requires cents < 100
    ensures var w := Without(Grouped(reais), '.');
            var p := PaddedDigits(cents, 2);
            DecimalComma(FormatAmount(reais, cents)) == w + "." + p
  {
    assert Pow10(2) == 100;
    var g := Grouped(reais);
    var p := PaddedDigits(cents, 2);
    GroupedDigits(reais);
    var w := Without(g, '.');
    WithoutAppend(g + ",", p, '.');
    WithoutAppend(g, ",", '.');
    assert Without(",", '.') == ",";
    WithoutAbsent(p, '.');
    var x := w + "," + p;
    assert Without(FormatAmount(reais, cents), '.') == x;
    assert Swap(x, ',', '.') == w + "." + p;
  }

  /** Two fraction digits denote that many hundredths. */
  lemma TwoDigitFraction(p: string)
    requires AllDigits(p) && |p| == 2
    ensures FractionValue(p) == DigitsValue(p) as real / 100.0
  {
    var a := (p[0] as int - '0' as int) as real;
    var b := (p[1] as int - '0' as int) as real;
    assert p[1..][1..] == [];
    assert FractionValue(p[1..]) == b / 10.0;
    assert FractionValue(p) == (a + b / 10.0) / 10.0;
    assert p[..1][..0] == [];
    assert DigitsValue(p[..1]) == p[0] as int - '0' as int;
    assert DigitsValue(p) as real == 10.0 * a + b;
  }

  /** The plain decimal text `w.p` denotes `w` units and `p` hundredths. */
  lemma PlainAmountValue(w: string, p: string)
    requires |w| > 0 && AllDigits(w) && AllDigits(p) && |p| == 2
    ensures IsPlainDecimal(w + "." + p) && Trimmed(w + "." + p)
    ensures PlainValue(w + "." + p) == DigitsValue(w) as real + DigitsValue(p) as real / 100.0
  {
    var d := w + "." + p;
    assert d[0] == w[0] && d[|d| - 1] == p[1];
    assert !HasSign(d);
    assert d[|w|] == '.';
    var k := FindChar(d, '.');
    assert k == |w|;
    assert d[..k] == w;
    assert d[k + 1..] == p;
    assert Unsigned(d) == d;
    TwoDigitFraction(p);
    assert MagnitudeValue(d) == DigitsValue(w) as real + DigitsValue(p) as real / 100.0;
    assert PlainValue(d) == MagnitudeValue(d);
    assert PlainValue(d) == DigitsValue(w) as real + DigitsValue(p) as real / 100.0;
  }

  /** The normalised form of a printed amount is plain decimal text denoting it. */
  lemma PrintedAmountIsPlain(reais: nat, cents: nat)
    requires cents < 100
    ensures var d := DecimalComma(FormatAmount(reais, cents));
            IsPlainDecimal(d) && Trimmed(d) && PlainValue(d) == AmountValue(reais, cents)
  {
    assert Pow10(2) == 100;
    GroupedDigits(reais);
    PrintedAmountText(reais, cents);
    var w := Without(Grouped(reais), '.');
    var p := PaddedDigits(cents, 2);
    PlainAmountValue(w, p);
  }

  /** Reading a printed amount back gives the amount. */
  lemma {:induction false} NumberRoundTrip(reais: nat, cents: nat, exotic: ExoticFloat)
    requires cents < 100
    ensures CleanNumber(FormatAmount(reais, cents), exotic) == AmountValue(reais, cents)
  {
    var f := FormatAmount(reais, cents);
    var d := DecimalComma(f);
    PrintedAmountIsPlain(reais, cents);
    assert NumberText(f) == d by {
      StripTrimmed(d);
    }
    assert f != [];
  }

  /** A printed amount has no `R` in it, so `R$` removal leaves it alone. */
  lemma {:induction false} NoSymbolInAmount(reais: nat, cents: nat)
    requires cents < 100
    ensures 'R' !in FormatAmount(reais, cents) && ' ' !in FormatAmount(reais, cents)
  {
    assert Pow10(2) == 100;
    GroupedDigits(reais);
    var g := Grouped(reais);
    var p := PaddedDigits(cents, 2);
    var f := FormatAmount(reais, cents);
    assert f == g + "," + p;
    forall i | 0 <= i < |f|
      ensures f[i] != 'R' && f[i] != ' '
    {
      if i < |g| {
        assert f[i] == g[i];
      } else if i > |g| {
        assert f[i] == p[i - |g| - 1];
      }
    }
  }

  /** Reading a printed amount back as currency gives the amount ... */
  lemma {:induction false} CurrencyRoundTrip(reais: nat, cents: nat, exotic: ExoticFloat)
    requires cents < 100
    ensures CleanCurrency(FormatAmount(reais, cents), exotic) == AmountValue(reais, cents)
  {
    var f := FormatAmount(reais, cents);
    assert CurrencyText(f) == NumberText(f) by {
      NoSymbolInAmount(reais, cents);
      ReplaceAbsentHead(f, "R$", "");
    }
    NumberRoundTrip(reais, cents, exotic);
  }

  /** ... and so does the same text behind the `R$ ` symbol. */
  lemma {:induction false} PrefixedCurrencyRoundTrip(reais: nat, cents: nat, exotic: ExoticFloat)
    requires cents < 100
    ensures CleanCurrency("R$ " + FormatAmount(reais, cents), exotic) == AmountValue(reais, cents)
  {
    var f := FormatAmount(reais, cents);
    var s := "R$ " + f;
    var d := DecimalComma(f);
    assert Replace(s, "R$", "") == " " + f by {
      NoSymbolInAmount(reais, cents);
      assert s[..2] == "R$" && s[2..] == " " + f;
      ReplaceAbsentHead(" " + f, "R$", "");
    }
    PrintedAmountIsPlain(reais, cents);
    assert CurrencyText(s) == d by {
      PrefixedText(f);
    }
  }

  /** One leading space does not change the normalised text. */
  lemma PrefixedText(f: string)
    requires Trimmed(DecimalComma(f))
    ensures Strip(DecimalComma(" " + f)) == DecimalComma(f)
  {
    var s := " " + f;
    assert s[0] == ' ' && s[1..] == f;
    assert Without(s, '.') == " " + Without(f, '.');
    SwapAppend(" ", Without(f, '.'), ',', '.');
    assert Swap(" ", ',', '.') == " ";
    var t := DecimalComma(f);
    assert DecimalComma(s) == " " + t + [];
    StripAround(" ", t, []);
  }

  /** 1234 is printed "1.234".
      The literal is pinned by a `requires` rather than written in the
      `ensures`: with the literal in the `ensures` the verifier unfolds the
      definitions on it eagerly and runs out of resource. */
  lemma GroupedExample(g: string)
    requires g == "1.234"
    ensures Grouped(1234) == g
  {
    assert Pow10(3) == 1000;
    assert NatDigits(1) == "1";
    assert PaddedDigits(2, 1) == "2";
    assert PaddedDigits(23, 2) == "23";
    assert PaddedDigits(234, 3) == "234";
    assert Grouped(1234) == Grouped(1) + "." + PaddedDigits(234, 3);
  }

  /** Two centavo digits, zero-padded. */
  lemma CentsExample(n: nat, p: string)
    requires n < 100 && p == [DigitChar(n / 10), DigitChar(n % 10)]
    ensures PaddedDigits(n, 2) == p
  {
    assert Pow10(2) == 100;
    assert PaddedDigits(n / 10, 1) == [DigitChar(n / 10)];
  }

  /** The amount printed "1.234,56" reads as 1234.56, with or without `R$ `.
      The literal is pinned by a `requires` rather than written in the
      `ensures`: with the literal in the `ensures` the verifier unfolds the
      definitions on it eagerly and runs out of resource. */
  lemma PrintedExample(s: string, exotic: ExoticFloat)
    requires s == "1.234,56"
    ensures CleanCurrency("R$ " + s, exotic) == 1234.56
    ensures CleanNumber(s, exotic) == 1234.56
  {
    GroupedExample("1.234");
    CentsExample(56, "56");
    assert FormatAmount(1234, 56) == s;
    PrefixedCurrencyRoundTrip(1234, 56, exotic);
    NumberRoundTrip(1234, 56, exotic);
  }

  /** 1234 reais and 50 centavos are printed "1.234,50".
      The literal is pinned by a `requires` rather than written in the
      `ensures`: with the literal in the `ensures` the verifier unfolds the
      definitions on it eagerly and runs out of resource. */
  lemma FormattedThousands(a: string)
    requires a == "1.234,50"
    ensures FormatAmount(1234, 50) == a
  {
    GroupedExample("1.234");
    CentsExample(50, "50");
  }

  /** "1.234,50" reads as 1234.5 ...
      The literal is pinned by a `requires` rather than written in the
      `ensures`: with the literal in the `ensures` the verifier unfolds the
      definitions on it eagerly and runs out of resource. */
  lemma PrintedThousands(a: string, exotic: ExoticFloat)
    requires a == "1.234,50"
    ensures CleanNumber(a, exotic) == 1234.5
  {
    FormattedThousands(a);
    NumberRoundTrip(1234, 50, exotic);
  }

  /** ... and "10,00" as 10.
      The literal is pinned by a `requires` rather than written in the
      `ensures`: with the literal in the `ensures` the verifier unfolds the
      definitions on it eagerly and runs out of resource. */
  lemma PrintedTen(b: string, exotic: ExoticFloat)
    requires b == "10,00"
    ensures CleanNumber(b, exotic) == 10.0
  {
    assert FormatAmount(10, 0) == b by {
      assert Grouped(10) == "10";
      CentsExample(0, "00");
    }
    NumberRoundTrip(10, 0, exotic);
  }
}

=== FILE: cemig.dfy ===
/**
 * `parse_cemig_invoice`: assembling the CEMIG record from the results of its
 * independent pattern searches, each given as an input (`None` when the
 * pattern did not match, otherwise the groups it captured).
 */
module Cemig {
  import opened Wrappers
  import opened Text
  import opened Numbers
  import opened Invoice

  /** Street line, district line and postcode line of the address block. */
  datatype CemigAddress = CemigAddress(street: string, district: string, cityLine: string)

  /** Reference month, due date and amount of the values line. */
  datatype Values = Values(month: string, dueDate: string, amount: string)

  /** What each search of `parse_cemig_invoice` found, in source order. The
      captures of a `\d+` group are digit strings. */
  datatype CemigMatches = CemigMatches(
    nome: Option<string>,
    documento: Option<string>,
    endereco: Option<CemigAddress>,
    valores: Option<Values>,
    instalacao: Option<string>,
    classe: Option<string>,
    tarifaTe: Option<string>,
    tarifaScee: Option<string>,
    consumo: Option<DigitString>,
    saldo: Option<string>,
    comp1: Option<DigitString>,
    comp2: Option<DigitString>,
    cip: Option<string>)

  /** No search matched. */
  const NoCemigMatches: CemigMatches :=
    CemigMatches(None, None, None, None, None, None, None, None, None, None, None, None, None)

  /** The classification text on one line: every newline becomes a space,
      then the ends are stripped. */
  function OneLine(s: string): (r: string)
    ensures '\n' !in r && Trimmed(r)
    ensures r == Strip(Swap(s, '\n', ' '))
  {
    var t := Replace(s, "\n", " ");
    ReplaceSwapsChar(s, '\n', ' ');
    assert '\n' !in t;
    StripKeepsAbsence(t, '\n');
    Strip(t)
  }

  /** `float` of a capture that is all digits. */
  function DigitsFloat(s: DigitString): real
  {
    DigitsValue(s) as real
  }

  /** A compensated-energy component: its digits, or 0 when the search failed. */
  function Component(c: Option<DigitString>): (v: real)
    ensures v >= 0.0
    ensures c.None? ==> v == 0.0
  {
    if c.Some? then DigitsFloat(c.value) else 0.0
  }

  /** A component is what `float()` makes of its capture. */
  lemma ComponentIsFloat(c: Option<DigitString>, exotic: ExoticFloat)
    requires c.Some?
    ensures ParseFloat(c.value, exotic) == Some(Component(c))
  {
    DigitsParse(c.value, exotic);
  }

  /** `parse_cemig_invoice`, given what each of its searches found. */
  function ParseCemig(m: CemigMatches, read: Readers): (r: Invoice)
    ensures r.totalOperacoes == r.valorPagar
    ensures m == NoCemigMatches ==> r == CemigSentinels
  {
    Invoice(
      titularNome := StrippedOrNotFound(m.nome),
      titularDocumento := StrippedOrNotFound(m.documento),
      enderecoCompleto :=
        if m.endereco.Some? then
          var e := m.endereco.value; JoinAddress(e.street, e.district, e.cityLine)
        else NotFound,
      classificacao := if m.classe.Some? then OneLine(m.classe.value) else NotFound,
      numeroInstalacao := if m.instalacao.Some? then m.instalacao.value else NotFound,
      mesReferencia := if m.valores.Some? then m.valores.value.month else NotFound,
      dataVencimento := if m.valores.Some? then m.valores.value.dueDate else NotFound,
      valorPagar := if m.valores.Some? then read.currency(m.valores.value.amount) else 0.0,
      tarifaTotalComTributos := if m.tarifaTe.Some? then read.number(m.tarifaTe.value) else 0.0,
      tarifaTotalAneel := AneelRate(if m.tarifaScee.Some? then read.number(m.tarifaScee.value) else 0.0),
      consumoKwh := if m.consumo.Some? then DigitsFloat(m.consumo.value) else 0.0,
      saldoAcumuladoKwh := if m.saldo.Some? then read.number(m.saldo.value) else 0.0,
      energiaCompensadaKwh := Component(m.comp1) + Component(m.comp2),
      totalOperacoes := if m.valores.Some? then read.currency(m.valores.value.amount) else 0.0,
      contribIlumPublica := if m.cip.Some? then read.currency(m.cip.value) else 0.0,
      aliquotas := Rates(NoRate, NoRate, NoRate),
      linhaDigitavel := NotFound)
  }

  /** Month, due date and amount come from one search: all set, or all sentinels. */
  lemma CemigValues(m: CemigMatches, read: Readers)
    ensures var r := ParseCemig(m, read);
            && (m.valores.None? ==>
                  r.mesReferencia == NotFound && r.dataVencimento == NotFound && r.valorPagar == 0.0)
            && (m.valores.Some? ==>
                  && r.mesReferencia == m.valores.value.month
                  && r.dataVencimento == m.valores.value.dueDate
                  && r.valorPagar == read.currency(m.valores.value.amount))
  {
  }

  /** The operations total always mirrors the amount due. */
  lemma CemigTotal(m: CemigMatches, read: Readers)
    ensures ParseCemig(m, read).totalOperacoes == ParseCemig(m, read).valorPagar
  {
  }

  /** The compensated energy is the sum of the two components, a missing one counting 0. */
  lemma CemigCompensated(m: CemigMatches, read: Readers)
    ensures var e := ParseCemig(m, read).energiaCompensadaKwh;
            && e >= 0.0
            && (m.comp1.None? && m.comp2.None? ==> e == 0.0)
            && (m.comp1.Some? && m.comp2.None? ==> e == DigitsValue(m.comp1.value) as real)
            && (m.comp1.None? && m.comp2.Some? ==> e == DigitsValue(m.comp2.value) as real)
            && (m.comp1.Some? && m.comp2.Some? ==>
                  e == (DigitsValue(m.comp1.value) + DigitsValue(m.comp2.value)) as real)
  {
  }

  /** The tax rates and the payment line are fixed for CEMIG invoices. */
  lemma CemigFixed(m: CemigMatches, read: Readers)
    ensures ParseCemig(m, read).aliquotas == Rates(NoRate, NoRate, NoRate)
    ensures ParseCemig(m, read).linhaDigitavel == NotFound
  {
  }

  /** A matched classification is its capture on one line, so it never holds a
      newline and has no surrounding space. */
  lemma CemigClassification(m: CemigMatches, read: Readers)
    ensures var c := ParseCemig(m, read).classificacao;
            && (m.classe.None? ==> c == NotFound)
            && (m.classe.Some? ==> c == OneLine(m.classe.value) && '\n' !in c && Trimmed(c))
  {
  }

  /** Name, document and address are stripped captures or sentinels. */
  lemma CemigHolder(m: CemigMatches, read: Readers)
    ensures var r := ParseCemig(m, read);
            && r.titularNome == StrippedOrNotFound(m.nome)
            && r.titularDocumento == StrippedOrNotFound(m.documento)
            && (m.endereco.None? ==> r.enderecoCompleto == NotFound)
            && (m.endereco.Some? ==>
                  var e := m.endereco.value;
                  r.enderecoCompleto == JoinAddress(e.street, e.district, e.cityLine))
  {
  }

  /** The remaining single-capture fields: the capture or its reading when their
      search matched, their sentinels when it failed. */
  lemma CemigSingleFields(m: CemigMatches, read: Readers)
    ensures var r := ParseCemig(m, read);
            && (m.instalacao.None? ==> r.numeroInstalacao == NotFound)
            && (m.instalacao.Some? ==> r.numeroInstalacao == m.instalacao.value)
            && (m.tarifaTe.None? ==> r.tarifaTotalComTributos == 0.0)
            && (m.tarifaTe.Some? ==> r.tarifaTotalComTributos == read.number(m.tarifaTe.value))
            && (m.tarifaScee.None? ==> r.tarifaTotalAneel == AneelRate(0.0))
            && (m.tarifaScee.Some? ==> r.tarifaTotalAneel == AneelRate(read.number(m.tarifaScee.value)))
            && (m.consumo.None? ==> r.consumoKwh == 0.0)
            && (m.consumo.Some? ==> r.consumoKwh == DigitsValue(m.consumo.value) as real)
            && (m.saldo.None? ==> r.saldoAcumuladoKwh == 0.0)
            && (m.saldo.Some? ==> r.saldoAcumuladoKwh == read.number(m.saldo.value))
            && (m.cip.None? ==> r.contribIlumPublica == 0.0)
            && (m.cip.Some? ==> r.contribIlumPublica == read.currency(m.cip.value))
  {
  }

  /** The record of a text in which no search matched. */
  const CemigSentinels: Invoice := Invoice(
    titularNome := NotFound, titularDocumento := NotFound, enderecoCompleto := NotFound,
    classificacao := NotFound, numeroInstalacao := NotFound, mesReferencia := NotFound,
    dataVencimento := NotFound, valorPagar := 0.0, tarifaTotalComTributos := 0.0,
    tarifaTotalAneel := AneelRate(0.0), consumoKwh := 0.0, saldoAcumuladoKwh := 0.0,
    energiaCompensadaKwh := 0.0, totalOperacoes := 0.0, contribIlumPublica := 0.0,
    aliquotas := Rates(NoRate, NoRate, NoRate), linhaDigitavel := NotFound)

  lemma CemigNoMatch(read: Readers)
    ensures ParseCemig(NoCemigMatches, read) == CemigSentinels
  {
  }

  /** Whether the values line matched changes month, due date, amount and
      the mirrored total; nothing else. */
  lemma CemigValuesIsolated(m: CemigMatches, v: Option<Values>, read: Readers)
    ensures var a := ParseCemig(m, read);
            var b := ParseCemig(m.(valores := v), read);
            b.(mesReferencia := a.mesReferencia, dataVencimento := a.dataVencimento,
               valorPagar := a.valorPagar, totalOperacoes := a.totalOperacoes) == a
  {
  }

  /** A classification that a line break splits in two reads as the two
      lines joined by a space (the lines may hold spaces of their own). */
  lemma TwoLineClassification(a: string, b: string)
    requires '\n' !in a && '\n' !in b && Trimmed(a + " " + b)
    ensures OneLine(a + "\n" + b) == a + " " + b
  {
    var t := a + " " + b;
    assert Swap(a + "\n" + b, '\n', ' ') == t by {
      NoNewline(a);
      NoNewline(b);
      SwapAppend(a + "\n", b, '\n', ' ');
      SwapAppend(a, "\n", '\n', ' ');
      assert Swap("\n", '\n', ' ') == " ";
    }
    StripAround([], t, []);
    assert [] + t + [] == t;
  }

  /** A line without a newline has no newline to swap. */
  lemma NoNewline(w: string)
    requires '\n' !in w
    ensures Swap(w, '\n', ' ') == w
  {
  }

  /** Components "120" and "30" give 150 kWh of compensated energy.
      The literal is pinned by a `requires` rather than written in the
      `ensures`: with the literal in the `ensures` the verifier unfolds the
      definitions on it eagerly and runs out of resource. */
  lemma CompensatedExample(a: DigitString, b: DigitString)
    requires a == "120" && b == "30"
    ensures Component(Some(a)) + Component(Some(b)) == 150.0
  {
    assert DigitsValue(a[..2][..1]) == 1;
    assert DigitsValue(a[..2]) == 12;
    assert DigitsValue(a) == 120;
    assert DigitsValue(b[..1]) == 3;
    assert DigitsValue(b) == 30;
  }
}

=== FILE: cpfl.dfy ===
/**
 * `parse_cpfl_invoice`: assembling the CPFL record from the results of its
 * independent pattern searches. Each search is an input here: `None` when
 * the pattern did not match, otherwise the groups it captured.
 */
module Cpfl {
  import opened Wrappers
  import opened Text
  import opened Numbers
  import opened Invoice
  import opened AmountFormat

  /** Holder name and CPF (groups 1 and 2 of the name/CPF search). */
  datatype NameDoc = NameDoc(name: string, doc: string)

  /** Street, classification, district and postcode line of the address block. */
  datatype AddressBlock = AddressBlock(street: string, classe: string, district: string, cityLine: string)

  /** Installation, reference month, due date and amount of the summary line. */
  datatype Summary = Summary(installation: string, month: string, dueDate: string, amount: string)

  /** The two percentages of the PIS/COFINS line. */
  datatype PisCofins = PisCofins(pis: string, cofins: string)

  /** What each search of `parse_cpfl_invoice` found, in source order. */
  datatype CpflMatches = CpflMatches(
    nomeCpf: Option<NameDoc>,
    endereco: Option<AddressBlock>,
    resumo: Option<Summary>,
    tarifaTusd: Option<string>,
    tarifaTe: Option<string>,
    consumo: Option<string>,
    saldo: Option<string>,
    injetadas: seq<string>,
    totalConsolidado: Option<string>,
    cip: Option<string>,
    pisCofins: Option<PisCofins>,
    icms: Option<string>,
    linha: Option<string>)

  /** The text CPFL invoices get in place of an ANEEL tariff. */
  const AneelPending: string := "Necessita cálculo deduzindo impostos"

  /** No search matched. */
  const NoCpflMatches: CpflMatches :=
    CpflMatches(None, None, None, None, None, None, None, [], None, None, None, None, None)

  /** The left-to-right sum of a sequence of numbers. */
  function Sum(xs: seq<real>): real
    decreases |xs|
  {
    if |xs| == 0 then 0.0 else Sum(xs[..|xs| - 1]) + xs[|xs| - 1]
  }

  /** `clean_number` applied to every capture. */
  function CleanAll(vals: seq<string>, read: Readers): (xs: seq<real>)
    ensures |xs| == |vals|
    ensures forall i :: 0 <= i < |vals| ==> xs[i] == read.number(vals[i])
  {
    seq(|vals|, i requires 0 <= i < |vals| => read.number(vals[i]))
  }

  /** The injected energy: the sum of the readings of all the captures. */
  function InjectedTotal(vals: seq<string>, read: Readers): (t: real)
    ensures vals == [] ==> t == 0.0
    ensures |vals| == 1 ==> t == read.number(vals[0])
  {
    var xs := CleanAll(vals, read);
    assert |xs| == 1 ==> xs[..0] == [] && Sum(xs[..0]) == 0.0 && Sum(xs) == xs[0];
    Sum(xs)
  }

  /** The generator sum as a loop over the captures. */
  method SumInjected(vals: seq<string>, read: Readers) returns (total: real)
    ensures total == InjectedTotal(vals, read)
  {
    var xs := CleanAll(vals, read);
    total := 0.0;
    var i := 0;
    while i < |vals|
      invariant 0 <= i <= |vals|
      invariant total == Sum(xs[..i])
    {
      assert xs[..i + 1][..i] == xs[..i];
      total := total + read.number(vals[i]);
      i := i + 1;
    }
    assert xs[..|vals|] == xs;
  }

  /** The sum over two runs of numbers is the sum of their sums. */
  lemma {:induction false} SumAppend(a: seq<real>, b: seq<real>)
    ensures Sum(a + b) == Sum(a) + Sum(b)
    decreases |b|
  {
    if |b| == 0 {
      assert a + b == a;
    } else {
      var b' := b[..|b| - 1];
      assert (a + b)[..|a + b| - 1] == a + b';
      assert (a + b)[|a + b| - 1] == b[|b| - 1];
      SumAppend(a, b');
    }
  }

  /** Over exact reals, the total over two runs of captures is the sum of
      their totals ... */
  lemma InjectedTotalAppend(a: seq<string>, b: seq<string>, read: Readers)
    ensures InjectedTotal(a + b, read) == InjectedTotal(a, read) + InjectedTotal(b, read)
  {
    assert CleanAll(a + b, read) == CleanAll(a, read) + CleanAll(b, read);
    SumAppend(CleanAll(a, read), CleanAll(b, read));
  }

  /** ... so, over exact reals, the order in which the injected-energy lines
      are found does not matter: any rearrangement of the captures has the
      same total. */
  lemma {:induction false} InjectedTotalOrder(a: seq<string>, b: seq<string>, read: Readers)
    requires multiset(a) == multiset(b)
    ensures InjectedTotal(a, read) == InjectedTotal(b, read)
    decreases |a|
  {
    if a == [] {
      assert |b| == |multiset(b)| == 0;
      assert b == [];
    } else {
      assert a[0] in multiset(b);
      var k :| 0 <= k < |b| && b[k] == a[0];
      var rest := b[..k] + b[k + 1..];
      RemoveMatched(a, b, k);
      InjectedTotalOrder(a[1..], rest, read);
      TotalAroundMatched(a, b, k, read);
    }
  }

  /** Taking the first capture of `a` out of both lists, where `b` holds it at
      `k`, leaves two rearrangements of each other. */
  lemma RemoveMatched(a: seq<string>, b: seq<string>, k: int)
    requires multiset(a) == multiset(b) && a != [] && 0 <= k < |b| && b[k] == a[0]
    ensures multiset(a[1..]) == multiset(b[..k] + b[k + 1..])
  {
    assert a == [a[0]] + a[1..];
    assert b == b[..k] + [b[k]] + b[k + 1..];
    assert multiset(b[..k] + b[k + 1..]) == multiset(b[..k]) + multiset(b[k + 1..]);
    assert multiset(a[1..]) == multiset(a) - multiset{a[0]};
  }

  /** Putting the same capture back, at the front of one list and at `k` in
      the other, keeps the totals equal. */
  lemma TotalAroundMatched(a: seq<string>, b: seq<string>, k: int, read: Readers)
    requires a != [] && 0 <= k < |b| && b[k] == a[0]
    requires InjectedTotal(a[1..], read) == InjectedTotal(b[..k] + b[k + 1..], read)
    ensures InjectedTotal(a, read) == InjectedTotal(b, read)
  {
    var x := a[0];
    assert a == [x] + a[1..];
    assert b == b[..k] + [x] + b[k + 1..];
    InjectedTotalAppend([x], a[1..], read);
    InjectedTotalAppend(b[..k], b[k + 1..], read);
    InjectedTotalAppend(b[..k] + [x], b[k + 1..], read);
    InjectedTotalAppend(b[..k], [x], read);
  }

  /** `parse_cpfl_invoice`, given what each of its searches found. */
  function ParseCpfl(m: CpflMatches, read: Readers): (r: Invoice)
    ensures m == NoCpflMatches ==> r == CpflSentinels
  {
    Invoice(
      titularNome := if m.nomeCpf.Some? then Strip(m.nomeCpf.value.name) else NotFound,
      titularDocumento := if m.nomeCpf.Some? then Strip(m.nomeCpf.value.doc) else NotFound,
      enderecoCompleto :=
        if m.endereco.Some? then
          var e := m.endereco.value; JoinAddress(e.street, e.district, e.cityLine)
        else NotFound,
      classificacao := if m.endereco.Some? then Strip(m.endereco.value.classe) else NotFound,
      numeroInstalacao := if m.resumo.Some? then m.resumo.value.installation else NotFound,
      mesReferencia := if m.resumo.Some? then m.resumo.value.month else NotFound,
      dataVencimento := if m.resumo.Some? then m.resumo.value.dueDate else NotFound,
      valorPagar := if m.resumo.Some? then read.currency(m.resumo.value.amount) else 0.0,
      tarifaTotalComTributos :=
        if m.tarifaTusd.Some? && m.tarifaTe.Some? then
          read.number(m.tarifaTusd.value) + read.number(m.tarifaTe.value)
        else 0.0,
      tarifaTotalAneel := AneelNote(AneelPending),
      consumoKwh := if m.consumo.Some? then read.number(m.consumo.value) else 0.0,
      saldoAcumuladoKwh := if m.saldo.Some? then read.number(m.saldo.value) else 0.0,
      energiaCompensadaKwh := InjectedTotal(m.injetadas, read),
      totalOperacoes :=
        if m.totalConsolidado.Some? then read.currency(m.totalConsolidado.value)
        else if m.resumo.Some? then read.currency(m.resumo.value.amount)
        else 0.0,
      contribIlumPublica := if m.cip.Some? then read.currency(m.cip.value) else 0.0,
      aliquotas := Rates(
        icms := if m.icms.Some? then m.icms.value else NoRate,
        pis := if m.pisCofins.Some? then m.pisCofins.value.pis else NoRate,
        cofins := if m.pisCofins.Some? then m.pisCofins.value.cofins else NoRate),
      linhaDigitavel := if m.linha.Some? then m.linha.value else NotFound)
  }

  /** The four summary fields come from one search: all set, or all sentinels. */
  lemma CpflSummary(m: CpflMatches, read: Readers)
    ensures var r := ParseCpfl(m, read);
            && (m.resumo.None? ==>
                  && r.numeroInstalacao == NotFound && r.mesReferencia == NotFound
                  && r.dataVencimento == NotFound && r.valorPagar == 0.0)
            && (m.resumo.Some? ==>
                  && r.numeroInstalacao == m.resumo.value.installation
                  && r.mesReferencia == m.resumo.value.month
                  && r.dataVencimento == m.resumo.value.dueDate
                  && r.valorPagar == read.currency(m.resumo.value.amount))
  {
  }

  /** The operations total is the consolidated total, or else the amount due. */
  lemma CpflTotal(m: CpflMatches, read: Readers)
    ensures var r := ParseCpfl(m, read);
            && (m.totalConsolidado.None? ==> r.totalOperacoes == r.valorPagar)
            && (m.totalConsolidado.Some? ==> r.totalOperacoes == read.currency(m.totalConsolidado.value))
  {
  }

  /** The tariff needs both of its components; the ANEEL field is the fixed note. */
  lemma CpflTariff(m: CpflMatches, read: Readers)
    ensures var r := ParseCpfl(m, read);
            && (!(m.tarifaTusd.Some? && m.tarifaTe.Some?) ==> r.tarifaTotalComTributos == 0.0)
            && (m.tarifaTusd.Some? && m.tarifaTe.Some? ==>
                  r.tarifaTotalComTributos == read.number(m.tarifaTusd.value) + read.number(m.tarifaTe.value))
            && r.tarifaTotalAneel == AneelNote(AneelPending)
  {
  }

  /** The compensated energy is the total of the injected-energy captures, 0 without any. */
  lemma CpflInjected(m: CpflMatches, read: Readers)
    ensures ParseCpfl(m, read).energiaCompensadaKwh == InjectedTotal(m.injetadas, read)
    ensures m.injetadas == [] ==> ParseCpfl(m, read).energiaCompensadaKwh == 0.0
  {
    if m.injetadas == [] {
      assert CleanAll(m.injetadas, read) == [];
    }
  }

  /** Name and CPF come from one search, and so do the address and classification. */
  lemma CpflHolder(m: CpflMatches, read: Readers)
    ensures var r := ParseCpfl(m, read);
            && (m.nomeCpf.None? ==> r.titularNome == NotFound && r.titularDocumento == NotFound)
            && (m.nomeCpf.Some? ==>
                  r.titularNome == Strip(m.nomeCpf.value.name) && r.titularDocumento == Strip(m.nomeCpf.value.doc))
  {
  }

  lemma CpflAddress(m: CpflMatches, read: Readers)
    ensures var r := ParseCpfl(m, read);
            && (m.endereco.None? ==> r.enderecoCompleto == NotFound && r.classificacao == NotFound)
            && (m.endereco.Some? ==>
                  var e := m.endereco.value;
                  r.enderecoCompleto == JoinAddress(e.street, e.district, e.cityLine)
                  && r.classificacao == Strip(e.classe))
  {
  }

  /** Each tax rate defaults to "0,00"; PIS and COFINS come from one search. */
  lemma CpflRates(m: CpflMatches, read: Readers)
    ensures var a := ParseCpfl(m, read).aliquotas;
            && (m.icms.None? ==> a.icms == NoRate)
            && (m.icms.Some? ==> a.icms == m.icms.value)
            && (m.pisCofins.None? ==> a.pis == NoRate && a.cofins == NoRate)
            && (m.pisCofins.Some? ==> a.pis == m.pisCofins.value.pis && a.cofins == m.pisCofins.value.cofins)
  {
  }

  /** The single-capture fields: the reading of the capture when their search
      matched, their sentinels when it failed. */
  lemma CpflSingleFields(m: CpflMatches, read: Readers)
    ensures var r := ParseCpfl(m, read);
            && (m.consumo.None? ==> r.consumoKwh == 0.0)
            && (m.consumo.Some? ==> r.consumoKwh == read.number(m.consumo.value))
            && (m.saldo.None? ==> r.saldoAcumuladoKwh == 0.0)
            && (m.saldo.Some? ==> r.saldoAcumuladoKwh == read.number(m.saldo.value))
            && (m.cip.None? ==> r.contribIlumPublica == 0.0)
            && (m.cip.Some? ==> r.contribIlumPublica == read.currency(m.cip.value))
            && (m.linha.None? ==> r.linhaDigitavel == NotFound)
            && (m.linha.Some? ==> r.linhaDigitavel == m.linha.value)
  {
  }

  /** The record of a text in which no search matched: every field holds its sentinel. */
  const CpflSentinels: Invoice := Invoice(
    titularNome := NotFound, titularDocumento := NotFound, enderecoCompleto := NotFound,
    classificacao := NotFound, numeroInstalacao := NotFound, mesReferencia := NotFound,
    dataVencimento := NotFound, valorPagar := 0.0, tarifaTotalComTributos := 0.0,
    tarifaTotalAneel := AneelNote(AneelPending), consumoKwh := 0.0, saldoAcumuladoKwh := 0.0,
    energiaCompensadaKwh := 0.0, totalOperacoes := 0.0, contribIlumPublica := 0.0,
    aliquotas := Rates(NoRate, NoRate, NoRate), linhaDigitavel := NotFound)

  lemma CpflNoMatch(read: Readers)
    ensures ParseCpfl(NoCpflMatches, read) == CpflSentinels
  {
    assert CleanAll([], read) == [];
  }

  /** Whether the summary line matched changes the four summary fields and,
      through the fallback, the operations total; nothing else. */
  lemma CpflSummaryIsolated(m: CpflMatches, s: Option<Summary>, read: Readers)
    ensures var a := ParseCpfl(m, read);
            var b := ParseCpfl(m.(resumo := s), read);
            b.(numeroInstalacao := a.numeroInstalacao, mesReferencia := a.mesReferencia,
               dataVencimento := a.dataVencimento, valorPagar := a.valorPagar,
               totalOperacoes := a.totalOperacoes) == a
  {
  }

  /** Two captures add up to the sum of their readings. */
  lemma InjectedPair(vals: seq<string>, read: Readers)
    requires |vals| == 2
    ensures InjectedTotal(vals, read) == read.number(vals[0]) + read.number(vals[1])
  {
    var xs := CleanAll(vals, read);
    assert xs[..1][..0] == [];
    assert xs[..1] == [xs[0]];
    assert Sum(xs[..1]) == xs[0];
    assert xs[..|xs| - 1] == xs[..1];
  }

  /** Two injected-energy lines printed "1.234,50" and "10,00" add up to 1244.5 kWh.
      The literal is pinned by a `requires` rather than written in the
      `ensures`: with the literal in the `ensures` the verifier unfolds the
      definitions on it eagerly and runs out of resource. */
  lemma InjectedExample(vals: seq<string>, exotic: ExoticFloat)
    requires vals == ["1.234,50", "10,00"]
    ensures InjectedTotal(vals, Cleaners(exotic)) == 1244.5
  {
    InjectedPair(vals, Cleaners(exotic));
    PrintedThousands(vals[0], exotic);
    PrintedTen(vals[1], exotic);
  }
}

=== FILE: dispatch.dfy ===
/**
 * `process_invoice`: choosing the parser by the utility's name in the
 * upper-cased text, CEMIG before CPFL, and no record when neither appears.
 */
module Dispatch {
  import opened Wrappers
  import opened Text
  import opened Numbers
  import opened Invoice
  import opened Cpfl
  import opened Cemig

  /** The two invoice layouts the extractor knows. */
  datatype Utility = CemigLayout | CpflLayout

  /** `marker` (upper case) appears at `i` in `text`, ignoring the case of ASCII letters. */
  ghost predicate MarkerAt(text: string, marker: string, i: int)
  {
    0 <= i && i + |marker| <= |text| &&
    forall j :: 0 <= j < |marker| ==> UpperChar(text[i + j]) == marker[j]
  }

  ghost predicate Mentions(text: string, marker: string)
  {
    exists i :: MarkerAt(text, marker, i)
  }

  /** `marker in text.upper()` holds exactly when the text mentions the marker. */
  lemma MentionsIff(text: string, marker: string)
    ensures Contains(Upper(text), marker) <==> Mentions(text, marker)
  {
    var u := Upper(text);
    ContainsIff(u, marker);
    forall i
      ensures OccursAt(u, marker, i) <==> MarkerAt(text, marker, i)
    {
      if 0 <= i && i + |marker| <= |text| {
        var w := u[i..i + |marker|];
        assert forall j :: 0 <= j < |marker| ==> w[j] == u[i + j];
        if MarkerAt(text, marker, i) {
          assert w == marker;
        }
      }
    }
  }

  /** The layout `process_invoice` picks for a text. */
  function Detect(text: string): (u: Option<Utility>)
    ensures u == Some(CemigLayout) <==> Mentions(text, "CEMIG")
    ensures u == Some(CpflLayout) <==> !Mentions(text, "CEMIG") && Mentions(text, "CPFL")
    ensures u == None <==> !Mentions(text, "CEMIG") && !Mentions(text, "CPFL")
  {
    MentionsIff(text, "CEMIG");
    MentionsIff(text, "CPFL");
    var up := Upper(text);
    if Contains(up, "CEMIG") then Some(CemigLayout)
    else if Contains(up, "CPFL") then Some(CpflLayout)
    else None
  }

  /** `process_invoice`: the record of the chosen layout, or none. The pattern
      searches of the two parsers are the parameters `scanCemig` and `scanCpfl`. */
  function ProcessInvoice(pdfFile: string, text: string, scanCemig: string -> CemigMatches,
                          scanCpfl: string -> CpflMatches, exotic: ExoticFloat): (r: Option<Invoice>)
    ensures r.None? <==> !Mentions(text, "CEMIG") && !Mentions(text, "CPFL")
    ensures Mentions(text, "CEMIG") ==> r == Some(ParseCemig(scanCemig(text), Cleaners(exotic)))
    ensures !Mentions(text, "CEMIG") && Mentions(text, "CPFL") ==>
              r == Some(ParseCpfl(scanCpfl(text), Cleaners(exotic)))
  {
    match Detect(text)
    case Some(CemigLayout) => Some(ParseCemig(scanCemig(text), Cleaners(exotic)))
    case Some(CpflLayout) => Some(ParseCpfl(scanCpfl(text), Cleaners(exotic)))
    case None => None
  }

  /** The file name plays no part in the result. */
  lemma FileNameIgnored(p: string, q: string, text: string, scanCemig: string -> CemigMatches,
                        scanCpfl: string -> CpflMatches, exotic: ExoticFloat)
    ensures ProcessInvoice(p, text, scanCemig, scanCpfl, exotic)
         == ProcessInvoice(q, text, scanCemig, scanCpfl, exotic)
  {
  }

  /** A text naming both utilities is read as a CEMIG invoice. */
  lemma CemigFirst(text: string, i: int, k: int)
    requires OccursAt(Upper(text), "CEMIG", i) && OccursAt(Upper(text), "CPFL", k)
    ensures Detect(text) == Some(CemigLayout)
  {
    MentionsIff(text, "CEMIG");
    ContainsIff(Upper(text), "CEMIG");
  }

  /** A text naming neither utility yields no record. */
  lemma NoMarkerNoRecord(pdfFile: string, text: string, scanCemig: string -> CemigMatches,
                         scanCpfl: string -> CpflMatches, exotic: ExoticFloat)
    requires forall i :: !MarkerAt(text, "CEMIG", i) && !MarkerAt(text, "CPFL", i)
    ensures ProcessInvoice(pdfFile, text, scanCemig, scanCpfl, exotic) == None
  {
  }

  /** Upper-casing is idempotent on characters ... */
  lemma UpperCharIdempotent(c: char)
    ensures UpperChar(UpperChar(c)) == UpperChar(c)
  {
  }

  /** ... so upper-casing the text first does not change the layout chosen. */
  lemma DetectIgnoresCase(text: string)
    ensures Detect(Upper(text)) == Detect(text)
  {
    var u := Upper(text);
    forall i | 0 <= i < |text|
      ensures Upper(u)[i] == u[i]
    {
      UpperCharIdempotent(text[i]);
    }
    assert Upper(u) == u;
    MentionsIff(text, "CEMIG");
    MentionsIff(text, "CPFL");
    MentionsIff(u, "CEMIG");
    MentionsIff(u, "CPFL");
  }

  /** The marker is found in lower case too: "cemig" selects the CEMIG parser. */
  lemma LowerCaseMarker(text: string, i: int)
    requires OccursAt(text, "cemig", i)
    ensures Detect(text) == Some(CemigLayout)
  {
    var w := text[i..i + 5];
    assert w == "cemig";
    forall j | 0 <= j < 5
      ensures UpperChar(text[i + j]) == "CEMIG"[j]
    {
      assert text[i + j] == w[j];
    }
    assert MarkerAt(text, "CEMIG", i);
  }
}

=== FILE: invoice.dfy ===
/**
 * The record both invoice parsers build: one field per key of the
 * dictionary they return, so every key is present by construction.
 */
module Invoice {
  import opened Wrappers
  import opened Text

  /** The sentinel a text field takes when its pattern did not match. */
  const NotFound: string := "Não encontrado"

  /** The tax rate a parser reports when it has none. */
  const NoRate: string := "0,00"

  /** The `aliquotas` sub-dictionary: percentages kept as printed. */
  datatype Rates = Rates(icms: string, pis: string, cofins: string)

  /** `tarifa_total_aneel` is a number on CEMIG invoices and a fixed note on CPFL ones. */
  datatype AneelTariff = AneelRate(rate: real) | AneelNote(note: string)

  datatype Invoice = Invoice(
    titularNome: string,
    titularDocumento: string,
    enderecoCompleto: string,
    classificacao: string,
    numeroInstalacao: string,
    mesReferencia: string,
    dataVencimento: string,
    valorPagar: real,
    tarifaTotalComTributos: real,
    tarifaTotalAneel: AneelTariff,
    consumoKwh: real,
    saldoAcumuladoKwh: real,
    energiaCompensadaKwh: real,
    totalOperacoes: real,
    contribIlumPublica: real,
    aliquotas: Rates,
    linhaDigitavel: string)

  /** A capture with its surrounding whitespace removed, or the sentinel when
      the search failed. */
  function StrippedOrNotFound(m: Option<string>): (r: string)
    ensures m.None? ==> r == NotFound
    ensures m.Some? ==> r == Strip(m.value) && Trimmed(r) && |r| <= |m.value|
  {
    if m.Some? then Strip(m.value) else NotFound
  }

  /** The address line both layouts print: three stripped parts joined by ", ". */
  function JoinAddress(a: string, b: string, c: string): string
  {
    Strip(a) + ", " + Strip(b) + ", " + Strip(c)
  }
}

=== FILE: numbers.dfy ===
/**
 * Locale number normalisation: `clean_currency` and `clean_number`, which
 * turn a Brazilian-formatted amount ("R$ 1.234,56") into a number, and the
 * part of Python's `float()` they rely on.
 */
module Numbers {
  import opened Wrappers
  import opened Text

  /** What Python's `float()` makes of stripped text that is neither plainly
      decimal nor plainly rejected: exponents, `inf`/`nan`, underscores
      between digits, non-ASCII digits. The model leaves this open: every
      property proved here holds whatever such a function answers. */
  type ExoticFloat = string -> Option<real>

  predicate IsDigit(c: char)
  {
    '0' <= c <= '9'
  }

  predicate AllDigits(s: string)
  {
    forall i :: 0 <= i < |s| ==> IsDigit(s[i])
  }

  /** What a `\d+` group captures (ASCII digits only), so `float()` on it cannot fail. */
  type DigitString = s: string | |s| > 0 && AllDigits(s) witness "0"

  /** The number an ASCII digit string denotes (leading zeros allowed). */
  function DigitsValue(s: string): nat
    requires AllDigits(s)
    decreases |s|
  {
    if |s| == 0 then 0
    else 10 * DigitsValue(s[..|s| - 1]) + (s[|s| - 1] as int - '0' as int)
  }

  function Pow10(n: nat): (p: nat)
    ensures p >= 1
  {
    if n == 0 then 1 else 10 * Pow10(n - 1)
  }

  /** An unsigned mantissa in the shape `float()` reads without exponent:
      `d+`, `d+.`, `d+.d+` or `.d+`. */
  predicate IsPlainMagnitude(b: string)
  {
    var k := FindChar(b, '.');
    && AllDigits(b[..k])
    && (k == |b| || AllDigits(b[k + 1..]))
    && (k > 0 || |b| > 1)
  }

  /** The value of the digits after a decimal point: "25" is 0.25. */
  function FractionValue(s: string): real
    requires AllDigits(s)
    decreases |s|
  {
    if |s| == 0 then 0.0
    else ((s[0] as int - '0' as int) as real + FractionValue(s[1..])) / 10.0
  }

  function MagnitudeValue(b: string): real
    requires IsPlainMagnitude(b)
  {
    var k := FindChar(b, '.');
    DigitsValue(b[..k]) as real + (if k == |b| then 0.0 else FractionValue(b[k + 1..]))
  }

  predicate HasSign(s: string)
  {
    |s| > 0 && (s[0] == '+' || s[0] == '-')
  }

  function Unsigned(s: string): string
  {
    if HasSign(s) then s[1..] else s
  }

  /** An optional sign followed by a plain mantissa. */
  predicate IsPlainDecimal(s: string)
  {
    IsPlainMagnitude(Unsigned(s))
  }

  function PlainValue(s: string): real
    requires IsPlainDecimal(s)
  {
    if HasSign(s) && s[0] == '-' then -MagnitudeValue(s[1..]) else MagnitudeValue(Unsigned(s))
  }

  /** ASCII characters that can occur in some text `float()` accepts. Any
      non-ASCII character might be a Unicode digit, so it is not excluded. */
  predicate MayBeInFloat(c: char)
  {
    || IsDigit(c) || c == '.' || c == '+' || c == '-' || c == '_'
    || c == 'e' || c == 'E' || c == 'i' || c == 'I' || c == 'n' || c == 'N'
    || c == 'f' || c == 'F' || c == 't' || c == 'T' || c == 'y' || c == 'Y'
    || c == 'a' || c == 'A' || c as int >= 128
  }

  /** Only ASCII digits, dots and signs: `float()` accepts such a text
      exactly when it is plain. */
  predicate OnlyDecimalChars(s: string)
  {
    forall i :: 0 <= i < |s| ==> IsDigit(s[i]) || s[i] == '.' || s[i] == '+' || s[i] == '-'
  }

  lemma PlainHasDecimalChars(s: string)
    requires IsPlainDecimal(s)
    ensures OnlyDecimalChars(s)
  {
    var b := Unsigned(s);
    var k := FindChar(b, '.');
    forall i | 0 <= i < |b|
      ensures IsDigit(b[i]) || b[i] == '.'
    {
      if i < k {
        assert b[..k][i] == b[i];
      } else if i > k {
        assert b[k + 1..][i - k - 1] == b[i];
      }
    }
    forall i | 0 <= i < |s|
      ensures IsDigit(s[i]) || s[i] == '.' || s[i] == '+' || s[i] == '-'
    {
      if HasSign(s) && i > 0 {
        assert s[i] == b[i - 1];
      }
    }
  }

  /** Python's `float()` on text with no whitespace at either end. */
  function FloatOfTrimmed(t: string, exotic: ExoticFloat): (r: Option<real>)
    requires Trimmed(t)
    ensures IsPlainDecimal(t) ==> r == Some(PlainValue(t))
    ensures OnlyDecimalChars(t) && !IsPlainDecimal(t) ==> r == None
    ensures r.Some? ==> t != [] && forall i :: 0 <= i < |t| ==> MayBeInFloat(t[i])
  {
    if IsPlainDecimal(t) then
      PlainHasDecimalChars(t);
      Some(PlainValue(t))
    else if OnlyDecimalChars(t) then None
    else if exists i :: 0 <= i < |t| && !MayBeInFloat(t[i]) then None
    else exotic(t)
  }

  /** The information separators U+001C to U+001F: whitespace to `str.strip()`,
      but not among the characters `float()` skips. */
  predicate IsInfoSeparator(c: char)
  {
    '\U{1C}' <= c <= '\U{1F}'
  }

  /** The whitespace `float()` skips at either end of its argument. */
  predicate FloatSpace(c: char)
  {
    IsSpace(c) && !IsInfoSeparator(c)
  }

  predicate AllFloatSpace(s: string)
  {
    forall i :: 0 <= i < |s| ==> FloatSpace(s[i])
  }

  predicate HasInfoSeparator(s: string)
  {
    exists i :: 0 <= i < |s| && IsInfoSeparator(s[i])
  }

  /** Python's `float(s)` on a `str`. It skips surrounding whitespace other
      than the information separators; one of those in the whitespace around
      the number is where the reading stops, so `float()` raises. */
  function ParseFloat(s: string, exotic: ExoticFloat): (r: Option<real>)
    ensures Trimmed(s) ==> r == FloatOfTrimmed(s, exotic)
  {
    var l := StripLeft(s);
    var t := StripRight(l);
    assert t == Strip(s);
    StripTrimmedIsIdentity(s);
    if HasInfoSeparator(s[..|s| - |l|]) || HasInfoSeparator(l[|t|..]) then None
    else FloatOfTrimmed(t, exotic)
  }

  /** `float()` reads a number with whitespace around it as the number alone. */
  lemma SpacedFloat(a: string, t: string, b: string, exotic: ExoticFloat)
    requires AllFloatSpace(a) && AllFloatSpace(b) && Trimmed(t)
    ensures ParseFloat(a + t + b, exotic) == FloatOfTrimmed(t, exotic)
  {
    var s := a + t + b;
    FloatSpaceIsSpace(a);
    FloatSpaceIsSpace(b);
    if t == [] {
      FloatSpaceIsSpace(a + b);
      assert StripLeft(s) == [] by {
        assert s == (a + b) + [];
        StripLeftSpaces(a + b, []);
      }
      assert s[..|s|] == a + b;
      ParseFloatCut(s, a + b, [], [], exotic);
    } else {
      assert StripLeft(s) == t + b by {
        assert s == a + (t + b);
        StripLeftSpaces(a, t + b);
      }
      StripRightSpaces(t, b);
      assert s[..|s| - |t + b|] == a;
      assert (t + b)[|t|..] == b;
      ParseFloatCut(s, a, t, b, exotic);
    }
  }

  /** Whitespace that `float()` skips is whitespace without separators. */
  lemma FloatSpaceIsSpace(a: string)
    requires AllFloatSpace(a)
    ensures AllSpace(a) && !HasInfoSeparator(a)
  {
  }

  /** `ParseFloat` once the two strips are known to cut `s` into `pre`, `t`
      and `post`. */
  lemma ParseFloatCut(s: string, pre: string, t: string, post: string, exotic: ExoticFloat)
    requires StripLeft(s) == t + post && s[..|s| - |t + post|] == pre
    requires StripRight(t + post) == t && Trimmed(t)
    requires !HasInfoSeparator(pre) && !HasInfoSeparator(post)
    ensures ParseFloat(s, exotic) == FloatOfTrimmed(t, exotic)
  {
    var l := StripLeft(s);
    assert StripRight(l) == t;
    assert s[..|s| - |l|] == pre;
    assert l[|t|..] == post by {
      assert (t + post)[|t|..] == post;
    }
  }

  /** An information separator before the number makes `float()` raise. */
  lemma SeparatorRejected(c: char, s: string, exotic: ExoticFloat)
    requires IsInfoSeparator(c)
    ensures ParseFloat([c] + s, exotic) == None
  {
    var u := [c] + s;
    assert u[1..] == s;
    var l := StripLeft(u);
    assert l == StripLeft(s);
    assert u[..|u| - |l|][0] == c;
  }

  /** Reference rewrite of the separators: every `.` dropped, every `,`
      turned into `.`. */
  function DecimalComma(s: string): (r: string)
    ensures ',' !in r
  {
    Swap(Without(s, '.'), ',', '.')
  }

  /** Removing the dots and then turning commas into dots is the separator rewrite. */
  lemma SeparatorRewrite(s: string)
    ensures Replace(Replace(s, ".", ""), ",", ".") == DecimalComma(s)
  {
    assert "." == ['.'] && "," == [','];
    ReplaceDropsChar(s, '.');
    ReplaceSwapsChar(Without(s, '.'), ',', '.');
  }

  /** The text `clean_currency` hands to `float()`: `R$` removed, then the
      separator rewrite, then the strip. */
  function CurrencyText(s: string): (r: string)
    ensures r == Strip(DecimalComma(Replace(s, "R$", "")))
    ensures ',' !in r && Trimmed(r)
  {
    SeparatorRewrite(Replace(s, "R$", ""));
    Strip(Replace(Replace(Replace(s, "R$", ""), ".", ""), ",", "."))
  }

  /** The text `clean_number` hands to `float()`: the separator rewrite, then the strip. */
  function NumberText(s: string): (r: string)
    ensures r == Strip(DecimalComma(s))
    ensures ',' !in r && Trimmed(r)
  {
    SeparatorRewrite(s);
    Strip(Replace(Replace(s, ".", ""), ",", "."))
  }

  /** A stripped text is its own strip. */
  lemma StripTrimmedIsIdentity(t: string)
    ensures Trimmed(t) ==> Strip(t) == t
  {
    if Trimmed(t) {
      StripTrimmed(t);
    }
  }

  lemma StripTrimmed(t: string)
    requires Trimmed(t)
    ensures Strip(t) == t
  {
    StripAround([], t, []);
    assert [] + t + [] == t;
  }

  /** Empty text normalises to empty text, which `float()` rejects. */
  lemma EmptyText(exotic: ExoticFloat)
    ensures CurrencyText([]) == [] && NumberText([]) == []
    ensures FloatOfTrimmed([], exotic) == None
  {
    assert !Contains([], "R$");
    assert Replace([], "R$", "") == [];
    assert |DecimalComma([])| == 0;
    assert OnlyDecimalChars([]);
    assert !IsPlainDecimal([]);
  }

  /** `clean_currency`: the amount a currency text denotes, 0.0 when the
      text is empty or `float()` rejects its normalised form. */
  function CleanCurrency(s: string, exotic: ExoticFloat): (r: real)
    ensures s == [] ==> r == 0.0
    ensures CurrencyText(s) == [] ==> r == 0.0
    ensures r == FloatOfTrimmed(CurrencyText(s), exotic).GetOr(0.0)
  {
    if s == [] then
      EmptyText(exotic);
      0.0
    else
      FloatOfTrimmed(CurrencyText(s), exotic).GetOr(0.0)
  }

  /** `clean_number`: as `CleanCurrency`, without removing `R$`. */
  function CleanNumber(s: string, exotic: ExoticFloat): (r: real)
    ensures s == [] ==> r == 0.0
    ensures NumberText(s) == [] ==> r == 0.0
    ensures r == FloatOfTrimmed(NumberText(s), exotic).GetOr(0.0)
  {
    if s == [] then
      EmptyText(exotic);
      0.0
    else
      FloatOfTrimmed(NumberText(s), exotic).GetOr(0.0)
  }

  /** The two number readers the invoice parsers use. The parsers are
      stated over any pair of readers; `Cleaners` is the pair `read.py`
      defines. */
  datatype Readers = Readers(currency: string -> real, number: string -> real)

  function Cleaners(exotic: ExoticFloat): (rd: Readers)
    ensures forall s :: rd.currency(s) == CleanCurrency(s, exotic)
    ensures forall s :: rd.number(s) == CleanNumber(s, exotic)
  {
    Readers(s => CleanCurrency(s, exotic), s => CleanNumber(s, exotic))
  }

  /** Without an `R$` in it, a text means the same to both cleaners. */
  lemma CurrencyAgreesWithNumber(s: string, exotic: ExoticFloat)
    requires !Contains(s, "R$")
    ensures CleanCurrency(s, exotic) == CleanNumber(s, exotic)
  {
  }

  /** Text `float()` can never read is worth 0.0, whatever the exotic cases do. */
  lemma RejectedTextIsZero(s: string, exotic: ExoticFloat)
    requires exists i :: 0 <= i < |NumberText(s)| && !MayBeInFloat(NumberText(s)[i])
    ensures CleanNumber(s, exotic) == 0.0
  {
    StripTrimmed(NumberText(s));
  }

  /** Lower-case letters pass through the separator rewrite and the strip. */
  lemma LettersUnchanged(w: string)
    requires forall i :: 0 <= i < |w| ==> 'a' <= w[i] <= 'z'
    ensures NumberText(w) == w
  {
    assert Trimmed(w);
    assert DecimalComma(w) == w by {
      WithoutAbsent(w, '.');
      assert Swap(w, ',', '.') == w;
    }
    StripTrimmed(w);
  }

  /** ... and there is no `R$` among them to remove. */
  lemma LettersUnchangedAsCurrency(w: string)
    requires forall i :: 0 <= i < |w| ==> 'a' <= w[i] <= 'z'
    ensures CurrencyText(w) == w && NumberText(w) == w
  {
    assert Replace(w, "R$", "") == w by {
      ReplaceAbsentHead(w, "R$", "");
    }
    LettersUnchanged(w);
  }

  /** `float()` rejects a text holding a character no number can contain. */
  lemma ForeignCharRejected(t: string, exotic: ExoticFloat)
    requires Trimmed(t)
    requires exists i :: 0 <= i < |t| && !MayBeInFloat(t[i])
    ensures FloatOfTrimmed(t, exotic) == None
  {
    if IsPlainDecimal(t) {
      PlainHasDecimalChars(t);
    }
  }

  lemma RejectedIsZero(s: string, exotic: ExoticFloat)
    requires FloatOfTrimmed(CurrencyText(s), exotic) == None
    requires FloatOfTrimmed(NumberText(s), exotic) == None
    ensures CleanCurrency(s, exotic) == 0.0 && CleanNumber(s, exotic) == 0.0
  {
  }

  /** The text "abc" (a word no number can contain) is worth 0.0.
      The literal is pinned by a `requires` rather than written in the
      `ensures`: with the literal in the `ensures` the verifier unfolds the
      definitions on it eagerly and runs out of resource. */
  lemma AbcIsZero(w: string, exotic: ExoticFloat)
    requires w == "abc"
    ensures CleanCurrency(w, exotic) == 0.0 && CleanNumber(w, exotic) == 0.0
  {
    assert FloatOfTrimmed(w, exotic) == None by {
      assert !MayBeInFloat(w[1]);
      ForeignCharRejected(w, exotic);
    }
    LettersUnchangedAsCurrency(w);
  }

  /** Empty text is worth 0.0. */
  lemma EmptyIsZero(exotic: ExoticFloat)
    ensures CleanCurrency("", exotic) == 0.0
    ensures CleanNumber("", exotic) == 0.0
  {
  }

  /** `float()` reads a `\d+` capture as the number its digits denote. */
  lemma DigitsParse(s: DigitString, exotic: ExoticFloat)
    ensures ParseFloat(s, exotic) == Some(DigitsValue(s) as real)
  {
    assert s[0] == s[..|s|][0];
    assert IsDigit(s[0]) && IsDigit(s[|s| - 1]);
    assert Trimmed(s);
    var k := FindChar(s, '.');
    assert k == |s|;
    assert s[..k] == s;
    assert !HasSign(s);
  }
}

=== FILE: text.dfy ===
/**
 * The few Python `str` operations the extractor relies on: `strip()`,
 * `replace(old, new)`, `in` (substring test) and `upper()`, together with
 * character-level reference definitions that the operations are proved
 * against.
 */
module Text {

  /** Python's `str.isspace()`: exactly the characters `str.strip()` removes. */
  predicate IsSpace(c: char)
  {
    || c == ' '
    || '\U{9}' <= c <= '\U{D}'
    || '\U{1C}' <= c <= '\U{1F}'
    || c == '\U{85}' || c == '\U{A0}' || c == '\U{1680}'
    || '\U{2000}' <= c <= '\U{200A}'
    || c == '\U{2028}' || c == '\U{2029}' || c == '\U{202F}'
    || c == '\U{205F}' || c == '\U{3000}'
  }

  predicate AllSpace(s: string)
  {
    forall i :: 0 <= i < |s| ==> IsSpace(s[i])
  }

  predicate NoSpace(s: string)
  {
    forall i :: 0 <= i < |s| ==> !IsSpace(s[i])
  }

  /** Neither end of `s` is whitespace. */
  predicate Trimmed(s: string)
  {
    s == [] || (!IsSpace(s[0]) && !IsSpace(s[|s| - 1]))
  }

  /** `s.lstrip()`: removes the longest all-whitespace prefix. */
  function StripLeft(s: string): (r: string)
    ensures |r| <= |s| && r == s[|s| - |r|..]
    ensures AllSpace(s[..|s| - |r|])
    ensures r == [] || !IsSpace(r[0])
    decreases |s|
  {
    if |s| > 0 && IsSpace(s[0]) then
      var r := StripLeft(s[1..]);
      assert s[..|s| - |r|] == [s[0]] + s[1..][..|s| - 1 - |r|];
      r
    else
      s
  }

  /** `s.rstrip()`: removes the longest all-whitespace suffix. */
  function StripRight(s: string): (r: string)
    ensures |r| <= |s| && r == s[..|r|]
    ensures AllSpace(s[|r|..])
    ensures r == [] || !IsSpace(r[|r| - 1])
    decreases |s|
  {
    if |s| > 0 && IsSpace(s[|s| - 1]) then
      var r := StripRight(s[..|s| - 1]);
      assert s[|r|..] == s[..|s| - 1][|r|..] + [s[|s| - 1]];
      r
    else
      s
  }

  /** `s.strip()`. */
  function Strip(s: string): (r: string)
    ensures Trimmed(r)
    ensures |r| <= |s|
  {
    var l := StripLeft(s);
    var r := StripRight(l);
    assert r != [] ==> r[0] == l[0];
    r
  }

  /** What `Strip` removes is whitespace, on both sides of a middle slice. */
  lemma StripIsSlice(s: string)
    ensures var r := Strip(s);
            exists i :: 0 <= i <= |s| - |r| && s[i..i + |r|] == r
                        && AllSpace(s[..i]) && AllSpace(s[i + |r|..])
  {
    var l := StripLeft(s);
    var r := StripRight(l);
    var i := |s| - |l|;
    assert Strip(s) == r;
    assert s[i..i + |r|] == r && AllSpace(s[i + |r|..]) by {
      PrefixOfSuffix(s, i, l, r);
    }
    assert 0 <= i <= |s| - |r| && AllSpace(s[..i]);
  }

  /** A prefix `r` of the suffix `l` of `s` starting at `i` is the slice at `i`. */
  lemma PrefixOfSuffix(s: string, i: int, l: string, r: string)
    requires 0 <= i <= |s| && l == s[i..] && |r| <= |l| && r == l[..|r|]
    ensures s[i..i + |r|] == r && s[i + |r|..] == l[|r|..]
  {
  }

  /** Stripping never brings in a character that was not there. */
  lemma StripKeepsAbsence(s: string, c: char)
    requires c !in s
    ensures c !in Strip(s)
  {
    var l := StripLeft(s);
    assert c !in l by {
      forall j | 0 <= j < |l|
        ensures l[j] != c
      {
        assert l[j] == s[|s| - |l| + j];
      }
    }
    var r := StripRight(l);
    assert c !in r by {
      forall j | 0 <= j < |r|
        ensures r[j] != c
      {
        assert r[j] == l[j];
      }
    }
  }

  lemma {:induction false} StripLeftSpaces(a: string, u: string)
    requires AllSpace(a) && (u == [] || !IsSpace(u[0]))
    ensures StripLeft(a + u) == u
    decreases |a|
  {
    if |a| > 0 {
      assert (a + u)[1..] == a[1..] + u;
      StripLeftSpaces(a[1..], u);
    } else {
      assert a + u == u;
    }
  }

  lemma {:induction false} StripRightSpaces(u: string, b: string)
    requires AllSpace(b) && (u == [] || !IsSpace(u[|u| - 1]))
    ensures StripRight(u + b) == u
    decreases |b|
  {
    if |b| > 0 {
      assert (u + b)[..|u + b| - 1] == u + b[..|b| - 1];
      StripRightSpaces(u, b[..|b| - 1]);
    } else {
      assert u + b == u;
    }
  }

  /** Strip undoes exactly the whitespace put around an already trimmed text. */
  lemma {:induction false} StripAround(a: string, t: string, b: string)
    requires AllSpace(a) && AllSpace(b) && Trimmed(t)
    ensures Strip(a + t + b) == t
  {
    if t == [] {
      assert a + t + b == a + b + [];
      assert AllSpace(a + b);
      StripLeftSpaces(a + b, []);
    } else {
      assert a + t + b == a + (t + b);
      StripLeftSpaces(a, t + b);
      StripRightSpaces(t, b);
    }
  }

  /** Python's `pat in s`. */
  predicate Contains(s: string, pat: string)
    ensures Contains(s, pat) ==> |pat| <= |s|
    ensures pat == [] ==> Contains(s, pat)
    decreases |s|
  {
    if |s| < |pat| then false else s[..|pat|] == pat || Contains(s[1..], pat)
  }

  /** `pat` occurs in `s` starting at index `i`. */
  predicate OccursAt(s: string, pat: string, i: int)
  {
    0 <= i && i + |pat| <= |s| && s[i..i + |pat|] == pat
  }

  /** The scanning definition of `Contains` agrees with "occurs somewhere". */
  lemma {:induction false} ContainsIff(s: string, pat: string)
    ensures Contains(s, pat) <==> exists i :: OccursAt(s, pat, i)
    decreases |s|
  {
    if |s| < |pat| {
      assert forall i :: !OccursAt(s, pat, i);
    } else if s[..|pat|] == pat {
      assert OccursAt(s, pat, 0);
    } else {
      ContainsIff(s[1..], pat);
      if exists i :: OccursAt(s[1..], pat, i) {
        var i :| OccursAt(s[1..], pat, i);
        assert s[i + 1..i + 1 + |pat|] == s[1..][i..i + |pat|];
        assert OccursAt(s, pat, i + 1);
      }
      if exists i :: OccursAt(s, pat, i) {
        var i :| OccursAt(s, pat, i);
        assert i != 0;
        assert s[1..][i - 1..i - 1 + |pat|] == s[i..i + |pat|];
        assert OccursAt(s[1..], pat, i - 1);
      }
    }
  }

  /** Python's `s.replace(pat, rep)` for a non-empty `pat`: occurrences are
      replaced left to right, without overlapping. */
  function Replace(s: string, pat: string, rep: string): (r: string)
    requires |pat| > 0
    ensures !Contains(s, pat) ==> r == s
    decreases |s|
  {
    if |s| < |pat| then s
    else if s[..|pat|] == pat then rep + Replace(s[|pat|..], pat, rep)
    else [s[0]] + Replace(s[1..], pat, rep)
  }

  /** `s` with every `c` removed (reference for `s.replace(c, '')`). */
  function Without(s: string, c: char): (r: string)
    ensures c !in r
    ensures |r| <= |s|
    decreases |s|
  {
    if |s| == 0 then []
    else if s[0] == c then Without(s[1..], c)
    else [s[0]] + Without(s[1..], c)
  }

  /** `s` with every `a` turned into `b` (reference for `s.replace(a, b)`). */
  function Swap(s: string, a: char, b: char): (r: string)
    ensures |r| == |s|
    ensures forall i :: 0 <= i < |s| ==> r[i] == (if s[i] == a then b else s[i])
  {
    seq(|s|, i requires 0 <= i < |s| => if s[i] == a then b else s[i])
  }

  lemma {:induction false} ReplaceDropsChar(s: string, c: char)
    ensures Replace(s, [c], "") == Without(s, c)
    decreases |s|
  {
    if |s| > 0 {
      ReplaceDropsChar(s[1..], c);
      assert s[..1] == [s[0]];
      assert s[1..] == s[|[c]|..];
    }
  }

  lemma {:induction false} ReplaceSwapsChar(s: string, a: char, b: char)
    ensures Replace(s, [a], [b]) == Swap(s, a, b)
    decreases |s|
  {
    if |s| > 0 {
      ReplaceSwapsChar(s[1..], a, b);
      assert s[..1] == [s[0]];
      var head := if s[0] == a then [b] else [s[0]];
      assert Replace(s, [a], [b]) == head + Swap(s[1..], a, b);
      assert head + Swap(s[1..], a, b) == Swap(s, a, b);
    }
  }

  /** Replacing a pattern whose first character is absent leaves the text alone. */
  lemma {:induction false} ReplaceAbsentHead(s: string, pat: string, rep: string)
    requires |pat| > 0 && pat[0] !in s
    ensures Replace(s, pat, rep) == s
    decreases |s|
  {
    if |s| >= |pat| {
      assert s[..|pat|][0] == s[0];
      ReplaceAbsentHead(s[1..], pat, rep);
      assert [s[0]] + s[1..] == s;
    }
  }

  lemma WithoutAbsent(s: string, c: char)
    requires c !in s
    ensures Without(s, c) == s
    decreases |s|
  {
    if |s| > 0 {
      WithoutAbsent(s[1..], c);
      assert [s[0]] + s[1..] == s;
    }
  }

  lemma WithoutAppend(x: string, y: string, c: char)
    ensures Without(x + y, c) == Without(x, c) + Without(y, c)
    decreases |x|
  {
    if |x| > 0 {
      WithoutAppend(x[1..], y, c);
      assert (x + y)[1..] == x[1..] + y;
    } else {
      assert x + y == y;
    }
  }

  lemma SwapAppend(x: string, y: string, a: char, b: char)
    ensures Swap(x + y, a, b) == Swap(x, a, b) + Swap(y, a, b)
  {
  }

  /** Python's `upper()` on one character, restricted to ASCII letters. */
  function UpperChar(c: char): (u: char)
  {
    if 'a' <= c <= 'z' then (c as int - 32) as char else c
  }

  /** `s.upper()` for the ASCII letters, character by character. */
  function Upper(s: string): (r: string)
    ensures |r| == |s|
    ensures forall i :: 0 <= i < |s| ==> r[i] == UpperChar(s[i])
  {
    seq(|s|, i requires 0 <= i < |s| => UpperChar(s[i]))
  }

  /** The index of the first `c` in `s`, or `|s|` when there is none. */
  function FindChar(s: string, c: char): (k: nat)
    ensures k <= |s|
    ensures k < |s| ==> s[k] == c
    ensures forall i :: 0 <= i < k ==> s[i] != c
    decreases |s|
  {
    if |s| == 0 then 0 else if s[0] == c then 0 else 1 + FindChar(s[1..], c)
  }
}

=== FILE: wrappers.dfy ===
/** The optional value used for a pattern that may or may not have matched. */
module Wrappers {

  datatype Option<+T> = None | Some(value: T) {

    /** The wrapped value, or `default` when there is none. */
    function GetOr(default: T): T
    {
      match this
      case Some(v) => v
      case None => default
    }
  }
}
